=== FILE: README.md ===
# Portfolio page script: the verifiable rules

This project is a Dafny model of the pure, stateful rules inside the portfolio
page's `script.js`. The script is mostly DOM wiring. What is left once that is
set aside is small, deterministic logic. Randomness, time and `Math.hypot`
become parameters:

- **Theme selection** (`Theme`): `applyTheme` folds any integer onto one of
  three palette slots with JavaScript's truncating `%`. `nextTheme` steps to
  the next slot.
- **HTML escaping** (`Escape`): `escapeHtml` runs five `replaceAll` passes.
  They turn `& < > " '` into the character references of section 13.1.4 of
  the HTML Living Standard.
- **Surface sizing** (`Surface`): the canvas device-pixel-ratio clamp and the
  `resize` arithmetic for the logical and backing-store sizes.
- **Physics preview** (`Physics`): the bounded FIFO list of at most 18
  bodies (`spawn`), and the per-frame step. The step is semi-implicit Euler
  integration, a wall pass that clamps and reflects, and a pairwise
  overlap-correction pass.
- **Topography preview** (`Topography`): the state that survives between
  frames. That is exponential smoothing of `modeTransition`, `angleX` and
  `angleY`, and the palette cycle with `lerpColor`. It also covers the
  three-way mode weights, the perspective `project` divide, the
  screen-buffer layout, and the cursor arithmetic of the ring polylines in
  `drawTube`.
- **Animation tick** (`Scheduler`): the frame `dt` clamp.
- **JavaScript arithmetic** (`JsMath`): truncating `%`, written out because
  Dafny's `%` is Euclidean, and `Math.round` (ties go toward +infinity),
  written out because Dafny's reals offer only `Floor`.

Numbers are Dafny `int` and exact `real`. They idealise JavaScript doubles
and the single-precision `Float32Array` buffers of the ring preview.
Every `Math.random()` value is a parameter in [0, 1), used in the order the
source draws it. `Math.hypot` is a function parameter. Where a property needs
it to be the true Euclidean norm, the lemma requires that.

Three facts about the code shape the contracts:

- The overlap pass runs after the wall pass and can push a body back past a
  wall. Containment is therefore proved for the wall pass (`Physics.WallPass`,
  `Physics.MoveAll`), and after a whole frame only when no pair overlaps
  (`Physics.Step`).
- `(Math.random() * 2 - 1) * 140` reaches -140 but never +140, so the
  velocity ranges are half-open.
- The pointer position is not clamped to [0, 1], so results that need it take
  `0 <= mx <= 1` as a hypothesis.

## Model

| member | source | states |
|---|---|---|
| JsMath.JsRem | script.js:12 | JavaScript `%` with a positive divisor: the result differs from the dividend by a multiple of the divisor, has the dividend's sign and is smaller than the divisor in magnitude |
| JsMath.JsRound | script.js:315-317 | `Math.round`: the result is the integer within half a unit of x, and a tie goes up |
| Theme.NormaliseTheme | script.js:11-12 | every integer, negative ones included, lands on a slot in [0, 3) that is congruent to it mod 3 |
| Theme.NormaliseIsResidue | script.js:12 | the double truncating remainder equals the mathematical residue `idx mod 3` for every integer |
| Theme.NextTheme | script.js:17 | the next index is a slot in [0, 3) that is one past the current index mod 3 |
| Theme.NextThemeCycles | script.js:17 | from a normalised slot `nextTheme` walks 0 → 1 → 2 → 0 |
| Theme.NextThemeThreeTimes | script.js:17 | from any slot, three `nextTheme` calls return to it (0, 1, 2, 0 cycle) |
| Escape.EscapeHtml | script.js:577-584 | the escaped text contains no `<`, `>`, `"` or `'` |
| Escape.ReplaceAll | script.js:579-583 | a one-character `replaceAll` leaves no occurrence of its character when the replacement has none, and adds no character found in neither input |
| Escape.EscapeHtmlIsPerCharacter | script.js:577-584 | the five sequential replacements equal a single per-character map, because `&` is replaced first and no reference is escaped twice |
| Escape.EscapeHtmlIsSafe | script.js:577-584 | the output has no `<`, `>`, `"` or `'`, and every `&` in it starts one of `&amp; &lt; &gt; &quot; &#039;` |
| Escape.EscapeHtmlPlainUnchanged | script.js:577-584 | text without any of the five special characters is returned unchanged |
| Escape.UnescapeEscapeHtml | script.js:577-584 | escaping loses nothing: reading the references back recovers the original text |
| Surface.ClampDpr | script.js:178 | the ratio is in [1, 2]; a ratio already in range is kept; a missing (zero) or small one becomes 1, and a large one becomes 2 |
| Surface.LogicalExtent | script.js:187-188 | the logical size is at least 1, and is the floor of the measured size whenever that is at least 1 |
| Surface.BackingExtent | script.js:189-190 | the backing-store extent is the floor of logical extent × ratio (the largest integer not above it), so it lies between the logical extent and twice it, and equals them at ratios 1 and 2 |
| Surface.Resize | script.js:185-190 | logical sizes are at least 1 and are the floored rectangle size when that is at least 1; each backing size is the floor of logical size × ratio, between the logical size and twice it |
| Physics.NewBody | script.js:219-226 | a spawned body has radius in [6, 13), velocity in [-140, 140) x [-80, 80), and lies on the surface when the normalised position does |
| Physics.Push | script.js:218-220 | the new body is last; below capacity the list grows by one; at capacity its length is kept and exactly the oldest body is dropped |
| Physics.Spawn | script.js:217-227 | from a list within capacity the result has min(len + 1, 18) bodies; at capacity the others keep their order minus the oldest; the new body is last with radius in [6, 13) |
| Physics.PushAllKeepsNewest | script.js:215-220 | after any run of spawns the list is exactly the newest 18 (or fewer) bodies ever pushed, oldest first (FIFO eviction) |
| Physics.PushAllBounded | script.js:215-218 | the list never holds more than 18 bodies, whatever the run of spawns, and once it holds 18 it keeps holding 18 |
| Physics.Scatter | script.js:228 | each start-up spawn adds one body within capacity, and every body stays in the scatter region with a valid radius |
| Physics.InitialBodies | script.js:228 | the preview starts with 10 bodies, each with radius in [6, 13), x in [0, w] and y in [0.05 h, 0.45 h] |
| Physics.LateralForce | script.js:238 | the steering force is zero at the centre, within ±30 over the surface, and negative exactly left of the centre |
| Physics.Integrate | script.js:240-243 | velocities change by force times dt, positions then move by the new velocity times dt, the radius is kept, and a zero dt changes nothing |
| Physics.IntegrateRelative | script.js:238-243 | the force is the same for every body, so one step moves the offset between two bodies by their relative velocity only and leaves that velocity unchanged |
| Physics.IntegrateClosedForm | script.js:240-243 | one step changes velocities by acceleration times dt, and positions by v·dt + a·dt² (semi-implicit Euler); the radius is unchanged |
| Physics.WallAxis | script.js:245-248 | one axis ends at most `extent - r`, and at least `r` when `extent >= 2r`; a hit wall gives a velocity pointing away from it with 0.78 of its magnitude; no hit means no change |
| Physics.WallPass | script.js:245-248 | after the four checks `x` is in [r, w - r] and `y` is in [r, h - r] whenever `w, h >= 2r`; a body already inside is untouched; the radius is kept |
| Physics.LeftWallExample | script.js:240-248 | a body moving left at 1000 px/s over a 0.032 s frame is clamped to x = r and leaves at +780 px/s |
| Physics.MoveAll | script.js:239-249 | the first loop of `step` keeps count and radii, and leaves every body that fits its surface inside the walls |
| Physics.PairDistance | script.js:255 | the distance used for the normal is never zero: it is `hypot` when that is non-zero and 0.0001 otherwise, and positive for a non-negative `hypot` |
| Physics.Separate | script.js:253-262 | the pair correction moves positions only; it preserves `a.x + b.x` and `a.y + b.y`, keeps velocities and radii, and leaves a non-overlapping pair unchanged |
| Physics.SeparateTouches | script.js:254-261 | with an exact `hypot` and distinct centres, an overlapping pair ends exactly touching: the squared centre distance becomes (ra + rb)² |
| Physics.SweepPair | script.js:251-264 | on two bodies the pairwise sweep is exactly one pair correction |
| Physics.SweepPairTouches | script.js:251-264 | two overlapping bodies with distinct centres leave the pass exactly touching, for a Euclidean `hypot` |
| Physics.OverlapPass | script.js:251-264 | the nested loops compute the reference sweep over every pair i < j in order, each pair seeing earlier corrections; count, velocities and radii are kept, the totals of x and of y are conserved, and a list with no overlapping pair is unchanged |
| Physics.Step | script.js:237-264 | a frame is the wall pass followed by the reference sweep; it keeps count, radii and the velocities the wall pass produced, conserves the centre totals of the wall pass, and keeps containment when no pair overlaps after the wall pass |
| Topography.Smooth | script.js:355 | one smoothing update lands between the value and the target (no overshoot), strictly closer when they differ, with the distance shrunk to 0.96 of itself |
| Topography.SmoothFramesError | script.js:355 | after n frames toward a held target the remaining distance is 0.96ⁿ of the starting one |
| Topography.SmoothFramesMonotone | script.js:355 | successive frames move monotonically toward a held target and never pass it |
| Topography.SmoothFramesStaysIn | script.js:354-355 | a smoothed value stays in any interval holding it and its target, so `modeTransition` stays in [0, 2] |
| Topography.ModeTarget | script.js:354 | the pointer maps onto the mode range: [0, 1] goes into [0, 2], with the ends and the centre sent to modes 0, 2 and 1 |
| Topography.AngleTarget | script.js:358-359 | the tilt target is the time drift `0.2 t` plus at most 0.45 either way from the pointer, and exactly the drift at the centre |
| Topography.UpdateControls | script.js:353-361 | each of `modeTransition`, `angleX`, `angleY` closes 4% of the gap to its target; `modeTransition` stays in [0, 2] while the pointer is over the surface |
| Topography.ModeWeights | script.js:363-372 | the three weights sum to 1; for m in [0, 2] each is in [0, 1]; only two neighbouring modes are active; weight0 = 1 at 0, weight1 = 1 at 1, weight2 = 1 at 2 |
| Topography.Blend | script.js:404-406 | with non-negative weights summing to 1 the blend lies between the smallest and largest mode contribution; a contribution shared by all three modes is scaled by the total weight |
| Topography.BlendIsConvex | script.js:404-406 | the blended twist/wave/flow is a convex combination: it lies between the smallest and largest mode contribution and keeps a shared one |
| Topography.Project | script.js:339-348 | the scale is in (0, 420], is 420/(z + 150) past the depth floor and 420 at or behind it; the screen point is offset from (w/2, 0.52 h) by the scene x and y times that one scale |
| Topography.ProjectPinhole | script.js:339-348 | past the depth floor, the screen offset from (w/2, 0.52 h) times the depth from the camera equals 420 times the scene offset, on both axes |
| Topography.ProjectScaleMonotone | script.js:341-344 | a deeper point never gets a larger scale, and gets a strictly smaller one once both are past the floor |
| Topography.ProjectCloud | script.js:425-427 | the screen buffer holds 2 entries per point, with point k's projected x and y at 2k and 2k + 1 |
| Topography.CloudFillsBuffer | script.js:293-296 | a frame of 54 × 22 = 1188 points fills the screen buffer of `RINGS * TUBE * 2` entries exactly |
| Topography.RingPolylines | script.js:460-472 | ring i reads its 22 points at cursor `(i*TUBE + j)*2` in order, closes on the point at `(i*TUBE)*2`, and every read is below `RINGS*TUBE*2` |
| Topography.AdvanceCycle | script.js:436-440 | after an update `colorIndex` is in {0, 1, 2} and `colorTime` is in [0, 3]; the time advances by 1/60 or resets to 0 as the index moves on |
| Topography.WindowRuns | script.js:436-440 | from the start of a window the colour time after n ≤ 180 frames is n/60 and the pair is unchanged |
| Topography.WindowEnds | script.js:436-440 | each colour pair lasts 181 frames, then the next pair starts with the time reset |
| Topography.Lerp | script.js:312 | `lerp` gives a at t = 0 and b at t = 1, and stays between a and b for t in [0, 1] |
| Topography.LerpChannel | script.js:315-317 | one `Math.round(lerp(a, b, t))` channel is a at t = 0, b at t = 1, and between a and b for t in [0, 1] |
| Topography.LerpColor | script.js:313-319 | each rounded channel lies between the two colours' channels for t in [0, 1], and the ends give the two colours |
| Topography.CycleColor | script.js:441-443 | the stroke colour has channels in [0, 255], is the current palette entry at time 0, and the next entry at time 3 |
| Topography.Frame | script.js:353-440 | one frame applies the control update and the palette advance, and keeps `modeTransition` in [0, 2] and the cycle valid while the pointer is over the surface |
| Topography.InitialIsValid | script.js:299-310 | before any frame the state is valid, the weights are all on the first mode, and the palette colour is the first entry |
| Topography.FirstFrame | script.js:353-443 | the first frame smooths before it draws: `modeTransition` becomes 0.08 mx (weights 0.96/0.04/0 at the centre), and the colour time 1/60 gives the stroke rgb(123, 44, 255) |
| Topography.RunStaysValid | script.js:353-440 | any run of frames with the pointer over the surface keeps the state valid: `modeTransition` in [0, 2] and the palette cycle in range |
| Scheduler.FrameDt | script.js:530 | the step is at most 0.032 s; a shorter gap passes through unchanged and a longer one is cut to 0.032 s |
| Scheduler.FrameDtExamples | script.js:530 | a 100 ms gap gives 0.032 s and a 16 ms gap gives 0.016 s |

## Left out

- DOM, CSS and event plumbing. This covers the theme meta tag and CSS
  variable, aurora pointer tracking, scroll reveal, ripples, the modal and its
  `innerHTML` template, and the theme auto-cycle timer. These are side
  effects with no computed result.
- Pointer normalisation `(clientX - left) / width` and the enter/leave flag.
  These are event plumbing. The division is unguarded in the code, and a
  zero-width rectangle gives a non-finite value that `real` cannot express.
- The preview registry (`initPreviews`) and the `requestAnimationFrame`
  scheduling loop. These are host lifecycle. Only the `dt` clamp of `tick` is
  modelled.
- Canvas draw calls: clearing, filling, arcs, line widths, rgba strings and
  the focus ring radius. These are rendering only. The ring polylines are
  modelled as the point sequences they stroke. The glow and core passes walk
  the buffer the same way, so one walk is modelled.
- The trigonometric geometry of `buildGeometry` and `rotate`, meaning the
  point values themselves. Dafny has no sine or cosine. The points enter
  `Topography.ProjectCloud` as inputs.
- Floating-point fidelity. Reals idealise doubles, so accumulated `1/60`
  rounding, NaN and infinities are not modelled. The `|| 0.0001` fallback is
  modelled only for an exact zero distance. The point and screen buffers are
  `Float32Array`s (script.js:295-296), so the stored coordinates are also
  rounded to single precision; the model keeps them exact.
- `Math.random` and `Math.hypot` are parameters, not implementations.
- The contact form and clipboard: `navigator.clipboard`, `encodeURIComponent`,
  the mailto navigation and `trim`. These are foreign library calls and I/O.
- Physics.SeparateTouches: it is stated only for an exact Euclidean `hypot`
  and distinct centres. With coincident centres the code's fallback distance
  moves neither body, since the offset is zero.
- Physics.Step: containment after the whole frame is not claimed in general,
  because the overlap pass can push a body past a wall. It is claimed only
  when no pair overlaps.

=== FILE: escape.dfy ===
/**
  HTML escaping of the text placed into the project-details dialog.

  `escapeHtml` runs five `replaceAll` passes, one per special character,
  turning `& < > " '` into the character references `&amp; &lt; &gt; &quot;
  &#039;` (section 13.1.4 of the HTML Living Standard, "Character
  references"). Every pattern is a single character, so each pass is a
  per-character substitution; because `&` is handled first, no reference is
  escaped twice and the chain equals one per-character map.
 */
module Escape {

  /** `s.replaceAll(c, rep)` for a one-character pattern and a replacement
      without `$`: every occurrence of `c`, scanned left to right, is replaced
      by `rep`. (JavaScript expands `$&`, `$$`, `` $` `` and `$'` in a string
      replacement; none of the five replacements below contains a `$`.) */
  function ReplaceAll(s: string, c: char, rep: string): (r: string)
    ensures c !in rep ==> c !in r
    ensures forall x :: x !in s && x !in rep ==> x !in r
  {
    if |s| == 0 then ""
    else if s[0] == c then rep + ReplaceAll(s[1..], c, rep)
    else [s[0]] + ReplaceAll(s[1..], c, rep)
  }

  /** The five-pass chain exactly as `escapeHtml` writes it. */
  function EscapeHtml(s: string): (r: string)
    ensures '<' !in r && '>' !in r && '"' !in r && '\'' !in r
  {
    ReplaceAll(
      ReplaceAll(
        ReplaceAll(
          ReplaceAll(
            ReplaceAll(s, '&', "&amp;"),
            '<', "&lt;"),
          '>', "&gt;"),
        '"', "&quot;"),
      '\'', "&#039;")
  }

  /** The character reference a single character becomes. */
  function EscapeChar(c: char): string
  {
    match c
    case '&' => "&amp;"
    case '<' => "&lt;"
    case '>' => "&gt;"
    case '"' => "&quot;"
    case '\'' => "&#039;"
    case _ => [c]
  }

  /** The per-character reference definition of escaping. */
  function EscapeMap(s: string): string
  {
    if |s| == 0 then "" else EscapeChar(s[0]) + EscapeMap(s[1..])
  }

  predicate IsSpecial(c: char)
  {
    c == '&' || c == '<' || c == '>' || c == '"' || c == '\''
  }

  /** `t` holds the text `e` starting at position `i`. */
  predicate HasAt(t: string, i: int, e: string)
  {
    0 <= i && i + |e| <= |t| && t[i..i + |e|] == e
  }

  /** One of the five character references starts at position `i` of `t`. */
  predicate ReferenceAt(t: string, i: int)
  {
    HasAt(t, i, "&amp;") || HasAt(t, i, "&lt;") || HasAt(t, i, "&gt;")
    || HasAt(t, i, "&quot;") || HasAt(t, i, "&#039;")
  }

  /** The safety property of escaped text: no markup-significant character
      other than `&`, and every `&` opens a character reference. */
  predicate Safe(t: string)
  {
    && (forall i :: 0 <= i < |t| ==> t[i] != '<' && t[i] != '>' && t[i] != '"' && t[i] != '\'')
    && (forall i :: 0 <= i < |t| && t[i] == '&' ==> ReferenceAt(t, i))
  }

  /* ---------- replaceAll distributes over concatenation ---------- */

  lemma {:induction false} ReplaceAllAppend(a: string, b: string, c: char, rep: string)
    ensures ReplaceAll(a + b, c, rep) == ReplaceAll(a, c, rep) + ReplaceAll(b, c, rep)
    decreases |a|
  {
    if |a| == 0 {
      assert a + b == b;
    } else {
      assert (a + b)[0] == a[0];
      assert (a + b)[1..] == a[1..] + b;
      ReplaceAllAppend(a[1..], b, c, rep);
    }
  }

  /** A pass whose character does not occur changes nothing. */
  lemma {:induction false} ReplaceAllAbsent(s: string, c: char, rep: string)
    requires c !in s
    ensures ReplaceAll(s, c, rep) == s
    decreases |s|
  {
    if |s| != 0 {
      assert s == [s[0]] + s[1..];
      ReplaceAllAbsent(s[1..], c, rep);
    }
  }

  lemma ReplaceAllSingle(x: char, c: char, rep: string)
    ensures ReplaceAll([x], c, rep) == if x == c then rep else [x]
  {
    assert [x][1..] == "";
  }

  /** The chain applied to a one-character string gives that character's
      reference. */
  lemma ChainOnChar(x: char)
    ensures EscapeHtml([x]) == EscapeChar(x)
  {
    var s1 := ReplaceAll([x], '&', "&amp;");
    ReplaceAllSingle(x, '&', "&amp;");
    if x == '&' {
      ReplaceAllAbsent(s1, '<', "&lt;");
      ReplaceAllAbsent(s1, '>', "&gt;");
      ReplaceAllAbsent(s1, '"', "&quot;");
      ReplaceAllAbsent(s1, '\'', "&#039;");
    } else {
      assert s1 == [x];
      var s2 := ReplaceAll(s1, '<', "&lt;");
      ReplaceAllSingle(x, '<', "&lt;");
      if x == '<' {
        ReplaceAllAbsent(s2, '>', "&gt;");
        ReplaceAllAbsent(s2, '"', "&quot;");
        ReplaceAllAbsent(s2, '\'', "&#039;");
      } else {
        assert s2 == [x];
        var s3 := ReplaceAll(s2, '>', "&gt;");
        ReplaceAllSingle(x, '>', "&gt;");
        if x == '>' {
          ReplaceAllAbsent(s3, '"', "&quot;");
          ReplaceAllAbsent(s3, '\'', "&#039;");
        } else {
          assert s3 == [x];
          var s4 := ReplaceAll(s3, '"', "&quot;");
          ReplaceAllSingle(x, '"', "&quot;");
          if x == '"' {
            ReplaceAllAbsent(s4, '\'', "&#039;");
          } else {
            assert s4 == [x];
            ReplaceAllSingle(x, '\'', "&#039;");
          }
        }
      }
    }
  }

  /** The five sequential `replaceAll`s equal the per-character map: since `&`
      goes first, no reference produced by a later pass is escaped again. */
  lemma {:induction false} EscapeHtmlIsPerCharacter(s: string)
    ensures EscapeHtml(s) == EscapeMap(s)
    decreases |s|
  {
    if |s| == 0 {
    } else {
      var x, rest := s[0], s[1..];
      assert s == [x] + rest;
      ReplaceAllAppend([x], rest, '&', "&amp;");
      var a1, b1 := ReplaceAll([x], '&', "&amp;"), ReplaceAll(rest, '&', "&amp;");
      ReplaceAllAppend(a1, b1, '<', "&lt;");
      var a2, b2 := ReplaceAll(a1, '<', "&lt;"), ReplaceAll(b1, '<', "&lt;");
      ReplaceAllAppend(a2, b2, '>', "&gt;");
      var a3, b3 := ReplaceAll(a2, '>', "&gt;"), ReplaceAll(b2, '>', "&gt;");
      ReplaceAllAppend(a3, b3, '"', "&quot;");
      var a4, b4 := ReplaceAll(a3, '"', "&quot;"), ReplaceAll(b3, '"', "&quot;");
      ReplaceAllAppend(a4, b4, '\'', "&#039;");
      assert EscapeHtml(s) == EscapeHtml([x]) + EscapeHtml(rest);
      ChainOnChar(x);
      EscapeHtmlIsPerCharacter(rest);
    }
  }

  /** Text with none of the five special characters passes through unchanged. */
  lemma {:induction false} EscapeHtmlPlainUnchanged(s: string)
    requires forall i :: 0 <= i < |s| ==> !IsSpecial(s[i])
    ensures EscapeHtml(s) == s
  {
    EscapeHtmlIsPerCharacter(s);
    EscapeMapPlain(s);
  }

  lemma {:induction false} EscapeMapPlain(s: string)
    requires forall i :: 0 <= i < |s| ==> !IsSpecial(s[i])
    ensures EscapeMap(s) == s
    decreases |s|
  {
    if |s| != 0 {
      assert !IsSpecial(s[0]);
      assert s == [s[0]] + s[1..];
      EscapeMapPlain(s[1..]);
    }
  }

  /* ---------- safety of escaped text ---------- */

  lemma HasAtAppend(a: string, b: string, i: int, e: string)
    requires HasAt(a, i, e)
    ensures HasAt(a + b, i, e)
  {
    assert (a + b)[i..i + |e|] == a[i..i + |e|];
  }

  lemma HasAtPrepend(a: string, b: string, i: int, e: string)
    requires HasAt(b, i, e)
    ensures HasAt(a + b, |a| + i, e)
  {
    assert (a + b)[|a| + i..|a| + i + |e|] == b[i..i + |e|];
  }

  lemma ReferenceAtAppend(a: string, b: string, i: int)
    requires ReferenceAt(a, i)
    ensures ReferenceAt(a + b, i)
  {
    if HasAt(a, i, "&amp;") { HasAtAppend(a, b, i, "&amp;"); }
    else if HasAt(a, i, "&lt;") { HasAtAppend(a, b, i, "&lt;"); }
    else if HasAt(a, i, "&gt;") { HasAtAppend(a, b, i, "&gt;"); }
    else if HasAt(a, i, "&quot;") { HasAtAppend(a, b, i, "&quot;"); }
    else { HasAtAppend(a, b, i, "&#039;"); }
  }

  lemma ReferenceAtPrepend(a: string, b: string, i: int)
    requires ReferenceAt(b, i)
    ensures ReferenceAt(a + b, |a| + i)
  {
    if HasAt(b, i, "&amp;") { HasAtPrepend(a, b, i, "&amp;"); }
    else if HasAt(b, i, "&lt;") { HasAtPrepend(a, b, i, "&lt;"); }
    else if HasAt(b, i, "&gt;") { HasAtPrepend(a, b, i, "&gt;"); }
    else if HasAt(b, i, "&quot;") { HasAtPrepend(a, b, i, "&quot;"); }
    else { HasAtPrepend(a, b, i, "&#039;"); }
  }

  /** Safe texts stay safe when put side by side. */
  lemma SafeAppend(a: string, b: string)
    requires Safe(a) && Safe(b)
    ensures Safe(a + b)
  {
    var t := a + b;
    forall i | 0 <= i < |t| && t[i] == '&'
      ensures ReferenceAt(t, i)
    {
      if i < |a| {
        assert a[i] == '&';
        ReferenceAtAppend(a, b, i);
      } else {
        assert b[i - |a|] == '&';
        ReferenceAtPrepend(a, b, i - |a|);
      }
    }
  }

  lemma SafeChar(x: char)
    ensures Safe(EscapeChar(x))
  {
    var t := EscapeChar(x);
    if IsSpecial(x) {
      assert t[0] == '&';
      assert HasAt(t, 0, t);
      forall i | 0 < i < |t|
        ensures t[i] != '&'
      {
      }
    }
  }

  /** The output of `escapeHtml` contains no `<`, `>`, `"` or `'`, and every
      `&` in it begins one of the five character references. */
  lemma {:induction false} EscapeHtmlIsSafe(s: string)
    ensures Safe(EscapeHtml(s))
  {
    EscapeHtmlIsPerCharacter(s);
    EscapeMapIsSafe(s);
  }

  lemma {:induction false} EscapeMapIsSafe(s: string)
    ensures Safe(EscapeMap(s))
    decreases |s|
  {
    if |s| != 0 {
      SafeChar(s[0]);
      EscapeMapIsSafe(s[1..]);
      SafeAppend(EscapeChar(s[0]), EscapeMap(s[1..]));
    }
  }

  /* ---------- no information is lost ---------- */

  /** Reading the five character references back: the inverse of escaping. */
  function Unescape(t: string): string
    decreases |t|
  {
    if |t| == 0 then ""
    else if HasAt(t, 0, "&amp;") then "&" + Unescape(t[5..])
    else if HasAt(t, 0, "&lt;") then "<" + Unescape(t[4..])
    else if HasAt(t, 0, "&gt;") then ">" + Unescape(t[4..])
    else if HasAt(t, 0, "&quot;") then "\"" + Unescape(t[6..])
    else if HasAt(t, 0, "&#039;") then "'" + Unescape(t[6..])
    else [t[0]] + Unescape(t[1..])
  }

  /** A text starting with `e` has `e` at position 0 and the rest after it. */
  lemma PrefixAt(e: string, u: string)
    ensures HasAt(e + u, 0, e)
    ensures (e + u)[|e|..] == u
  {
    assert (e + u)[0..|e|] == e;
  }

  /** Text at position 0 that differs in its `k`-th character is not `e`. */
  lemma NotAt(t: string, e: string, k: int)
    requires 0 <= k < |e| && k < |t| && t[k] != e[k]
    ensures !HasAt(t, 0, e)
  {
  }

  lemma UnescapeStep(x: char, u: string)
    ensures Unescape(EscapeChar(x) + u) == [x] + Unescape(u)
  {
    var e := EscapeChar(x);
    var t := e + u;
    PrefixAt(e, u);
    if x == '&' {
    } else if x == '<' {
      NotAt(t, "&amp;", 1);
    } else if x == '>' {
      NotAt(t, "&amp;", 1);
      NotAt(t, "&lt;", 1);
    } else if x == '"' {
      NotAt(t, "&amp;", 1);
      NotAt(t, "&lt;", 1);
      NotAt(t, "&gt;", 1);
    } else if x == '\'' {
      NotAt(t, "&amp;", 1);
      NotAt(t, "&lt;", 1);
      NotAt(t, "&gt;", 1);
      NotAt(t, "&quot;", 1);
    } else {
      assert e == [x];
      NotAt(t, "&amp;", 0);
      NotAt(t, "&lt;", 0);
      NotAt(t, "&gt;", 0);
      NotAt(t, "&quot;", 0);
      NotAt(t, "&#039;", 0);
    }
  }

  /** Escaping is injective: the original text is recovered from the output,
      so distinct dialog texts stay distinct after escaping. */
  lemma {:induction false} UnescapeEscapeHtml(s: string)
    ensures Unescape(EscapeHtml(s)) == s
  {
    EscapeHtmlIsPerCharacter(s);
    UnescapeEscapeMap(s);
  }

  lemma {:induction false} UnescapeEscapeMap(s: string)
    ensures Unescape(EscapeMap(s)) == s
    decreases |s|
  {
    if |s| != 0 {
      UnescapeStep(s[0], EscapeMap(s[1..]));
      UnescapeEscapeMap(s[1..]);
      assert s == [s[0]] + s[1..];
    }
  }
}

=== FILE: js_math.dfy ===
/**
  The few JavaScript number operations the page script relies on, written out
  over Dafny's unbounded `int` and exact `real`.

  Dafny's `%` is Euclidean (its result is never negative); JavaScript's `%`
  truncates toward zero, so the remainder takes the sign of the dividend.
  `Math.round` rounds to the nearest integer with ties going toward +infinity.
 */
module JsMath {

  /** `Math.abs`. */
  function Abs(x: real): (r: real)
    ensures 0.0 <= r
    ensures r == x || r == -x
  {
    if x < 0.0 then -x else x
  }

  function MinReal(a: real, b: real): (r: real)
    ensures r <= a && r <= b
    ensures r == a || r == b
  {
    if a <= b then a else b
  }

  function MaxReal(a: real, b: real): (r: real)
    ensures a <= r && b <= r
    ensures r == a || r == b
  {
    if a >= b then a else b
  }

  function MinInt(a: int, b: int): (r: int)
    ensures r <= a && r <= b
    ensures r == a || r == b
  {
    if a <= b then a else b
  }

  function MaxInt(a: int, b: int): (r: int)
    ensures a <= r && b <= r
    ensures r == a || r == b
  {
    if a >= b then a else b
  }

  /** JavaScript's integer quotient `Math.trunc(a / b)`: rounds toward zero. */
  function JsQuot(a: int, b: int): int
    requires 0 < b
  {
    if a >= 0 then a / b else -((-a) / b)
  }

  /** JavaScript's `a % b` for a positive divisor: the remainder of truncated
      division. The ensures pin the result down uniquely: it differs from `a`
      by a multiple of `b`, has the sign of `a`, and is smaller than `b` in
      magnitude. */
  function JsRem(a: int, b: int): (r: int)
    requires 0 < b
    ensures a - r == JsQuot(a, b) * b
    ensures 0 <= a ==> 0 <= r < b
    ensures a < 0 ==> -b < r <= 0
  {
    if a >= 0 then a % b else -((-a) % b)
  }

  /** JavaScript's `Math.round`: the integer nearest to `x`, a tie going up. */
  function JsRound(x: real): (r: int)
    ensures r as real - 0.5 <= x < r as real + 0.5
  {
    (x + 0.5).Floor
  }

  /** Rounding never leaves an interval whose ends are integers. */
  lemma RoundWithin(x: real, lo: int, hi: int)
    ensures lo as real <= x <= hi as real ==> lo <= JsRound(x) <= hi
  {
  }

  /* Facts about real products that the solver does not find unaided inside
     larger proofs. */

  lemma MulNonNeg(x: real, y: real)
    requires 0.0 <= x && 0.0 <= y
    ensures 0.0 <= x * y
  {
  }

  lemma MulMono(x: real, y: real, z: real)
    requires x <= y && 0.0 <= z
    ensures x * z <= y * z
  {
  }
}

=== FILE: physics.dfy ===
/**
  The bouncing-ball preview: a bounded first-in-first-out list of circular
  bodies, integrated each frame under gravity and a pointer-driven lateral
  force, bounced off the four walls, and then pushed apart pairwise where they
  overlap.

  Positions, velocities and radii are exact reals (an idealisation of
  doubles). `Math.random` values and `Math.hypot` are parameters.
 */
module Physics {
  import opened JsMath

  const Gravity: real := 900.0
  const Bounce: real := 0.78
  const MaxBodies: int := 18
  /** Fallback distance for coincident centres (`hypot(dx, dy) || 0.0001`). */
  const CoincidentDistance: real := 0.0001

  datatype Body = Body(x: real, y: real, vx: real, vy: real, r: real)

  /** A value `Math.random()` can return. */
  predicate IsRandom(u: real)
  {
    0.0 <= u < 1.0
  }

  /* ---------------------------- spawning ---------------------------- */

  /** The body `spawn(xNorm, yNorm)` creates on a `w` by `h` surface from the
      three random draws it makes, in source order: radius, then horizontal
      and vertical velocity. */
  function NewBody(xNorm: real, yNorm: real, w: real, h: real,
                   uRadius: real, uVx: real, uVy: real): (b: Body)
    requires IsRandom(uRadius) && IsRandom(uVx) && IsRandom(uVy)
    ensures 6.0 <= b.r < 13.0
    ensures -140.0 <= b.vx < 140.0
    ensures -80.0 <= b.vy < 80.0
    ensures 0.0 <= xNorm <= 1.0 && 0.0 <= w ==> 0.0 <= b.x <= w
    ensures 0.0 <= yNorm <= 1.0 && 0.0 <= h ==> 0.0 <= b.y <= h
  {
    FractionOf(xNorm, w);
    FractionOf(yNorm, h);
    Body(xNorm * w, yNorm * h, (uVx * 2.0 - 1.0) * 140.0, (uVy * 2.0 - 1.0) * 80.0, 6.0 + uRadius * 7.0)
  }

  /** A fraction in [0, 1] of a non-negative extent stays within it. */
  lemma FractionOf(a: real, e: real)
    ensures 0.0 <= a <= 1.0 && 0.0 <= e ==> 0.0 <= a * e <= e
  {
    if 0.0 <= a <= 1.0 && 0.0 <= e {
      assert (1.0 - a) * e >= 0.0;
    }
  }

  /** Appending to the bounded list: at capacity the oldest body is shifted
      out first. */
  function Push(bodies: seq<Body>, b: Body): (q: seq<Body>)
    ensures |bodies| < MaxBodies ==> |q| == |bodies| + 1
    ensures |bodies| >= MaxBodies ==> |q| == |bodies|
    ensures q[|q| - 1] == b
    ensures q[..|q| - 1] == bodies[|bodies| + 1 - |q|..]
  {
    if |bodies| >= MaxBodies then bodies[1..] + [b] else bodies + [b]
  }

  /** `spawn`: a new body appended to the bounded list. From any list within
      capacity the result has `min(len + 1, 18)` bodies; at capacity exactly the
      oldest body is gone and the others keep their order. */
  function Spawn(bodies: seq<Body>, w: real, h: real, xNorm: real, yNorm: real,
                 uRadius: real, uVx: real, uVy: real): (q: seq<Body>)
    requires IsRandom(uRadius) && IsRandom(uVx) && IsRandom(uVy)
    ensures |bodies| <= MaxBodies ==>
              |q| == if |bodies| + 1 < MaxBodies then |bodies| + 1 else MaxBodies
    ensures |bodies| >= MaxBodies ==> |q| == |bodies| && q[..|q| - 1] == bodies[1..]
    ensures |bodies| < MaxBodies ==> q[..|bodies|] == bodies
    ensures q[|q| - 1] == NewBody(xNorm, yNorm, w, h, uRadius, uVx, uVy)
    ensures 6.0 <= q[|q| - 1].r < 13.0
  {
    Push(bodies, NewBody(xNorm, yNorm, w, h, uRadius, uVx, uVy))
  }

  /** A sequence of pushes, oldest first. */
  function PushAll(bodies: seq<Body>, arrivals: seq<Body>): seq<Body>
    decreases |arrivals|
  {
    if |arrivals| == 0 then bodies else PushAll(Push(bodies, arrivals[0]), arrivals[1..])
  }

  /** The newest `MaxBodies` entries of a history, oldest first. */
  function Window(history: seq<Body>): (q: seq<Body>)
    ensures |q| <= MaxBodies
  {
    if |history| <= MaxBodies then history else history[|history| - MaxBodies..]
  }

  lemma PushIsWindow(xs: seq<Body>, b: Body)
    ensures Push(Window(xs), b) == Window(xs + [b])
  {
    if |xs| > MaxBodies {
      assert Window(xs)[1..] + [b] == (xs + [b])[|xs| + 1 - MaxBodies..];
    }
  }

  lemma WindowOfWindow(xs: seq<Body>, ys: seq<Body>)
    ensures Window(Window(xs) + ys) == Window(xs + ys)
  {
    if |xs| > MaxBodies {
      var w := xs[|xs| - MaxBodies..];
      assert (w + ys)[|ys|..] == (xs + ys)[|xs| + |ys| - MaxBodies..];
    }
  }

  /** The list is a FIFO window of capacity 18: after any run of spawns it holds
      exactly the most recent (at most 18) bodies of everything ever pushed,
      oldest first. */
  lemma {:induction false} PushAllKeepsNewest(bodies: seq<Body>, arrivals: seq<Body>)
    requires |bodies| <= MaxBodies
    ensures PushAll(bodies, arrivals) == Window(bodies + arrivals)
    decreases |arrivals|
  {
    if |arrivals| == 0 {
      assert bodies + arrivals == bodies;
    } else {
      var a, rest := arrivals[0], arrivals[1..];
      assert arrivals == [a] + rest;
      PushWindowStep(bodies, a, rest);
      PushAllKeepsNewest(Push(bodies, a), rest);
    }
  }

  /** One push of the run: it is the window of the history so far, and
      windowing that again before the rest of the run changes nothing. */
  lemma PushWindowStep(bodies: seq<Body>, a: Body, rest: seq<Body>)
    requires |bodies| <= MaxBodies
    ensures Push(bodies, a) == Window(bodies + [a])
    ensures Window(Push(bodies, a) + rest) == Window(bodies + ([a] + rest))
  {
    assert Window(bodies) == bodies;
    PushIsWindow(bodies, a);
    WindowOfWindow(bodies + [a], rest);
    assert bodies + [a] + rest == bodies + ([a] + rest);
  }

  /** The capacity bound holds for any run of spawns, and once full, the list
      stays full. */
  lemma PushAllBounded(bodies: seq<Body>, arrivals: seq<Body>)
    requires |bodies| <= MaxBodies
    ensures |PushAll(bodies, arrivals)| <= MaxBodies
    ensures |bodies| == MaxBodies ==> |PushAll(bodies, arrivals)| == MaxBodies
  {
    PushAllKeepsNewest(bodies, arrivals);
  }

  /** The conditions a freshly scattered body meets on a `w` by `h` surface. */
  predicate Scattered(b: Body, w: real, h: real)
  {
    && 6.0 <= b.r < 13.0
    && 0.0 <= b.x <= w
    && 0.05 * h <= b.y <= 0.45 * h
  }

  predicate AllScattered(bodies: seq<Body>, w: real, h: real)
  {
    forall k :: 0 <= k < |bodies| ==> Scattered(bodies[k], w, h)
  }

  /** The start-up scatter: one spawn per five random draws, at
      `(random, random * 0.4 + 0.05)` with the spawn's own three draws after. */
  function Scatter(bodies: seq<Body>, w: real, h: real, us: seq<real>): (q: seq<Body>)
    requires |us| % 5 == 0
    requires forall k :: 0 <= k < |us| ==> IsRandom(us[k])
    requires |bodies| <= MaxBodies
    requires 0.0 <= w && 0.0 <= h
    ensures |q| <= MaxBodies
    ensures |bodies| + |us| / 5 <= MaxBodies ==> |q| == |bodies| + |us| / 5
    ensures AllScattered(bodies, w, h) ==> AllScattered(q, w, h)
    decreases |us|
  {
    if |us| == 0 then bodies
    else
      ScatterStep(bodies, w, h, us);
      Scatter(Spawn(bodies, w, h, us[0], us[1] * 0.4 + 0.05, us[2], us[3], us[4]), w, h, us[5..])
  }

  /** One start-up spawn keeps the scatter invariants for the remaining draws. */
  lemma ScatterStep(bodies: seq<Body>, w: real, h: real, us: seq<real>)
    requires |us| % 5 == 0 && |us| > 0
    requires forall k :: 0 <= k < |us| ==> IsRandom(us[k])
    requires |bodies| <= MaxBodies
    requires 0.0 <= w && 0.0 <= h
    ensures var next := Spawn(bodies, w, h, us[0], us[1] * 0.4 + 0.05, us[2], us[3], us[4]);
            && |next| <= MaxBodies
            && (|bodies| < MaxBodies ==> |next| == |bodies| + 1)
            && (AllScattered(bodies, w, h) ==> AllScattered(next, w, h))
    ensures |us[5..]| % 5 == 0 && |us[5..]| / 5 == |us| / 5 - 1
    ensures forall k :: 0 <= k < |us[5..]| ==> IsRandom(us[5..][k])
  {
    var b := NewBody(us[0], us[1] * 0.4 + 0.05, w, h, us[2], us[3], us[4]);
    ScatteredNewBody(us[0], us[1], w, h, us[2], us[3], us[4]);
    PushKeepsScattered(bodies, b, w, h);
  }

  lemma PushKeepsScattered(bodies: seq<Body>, b: Body, w: real, h: real)
    ensures AllScattered(bodies, w, h) && Scattered(b, w, h) ==> AllScattered(Push(bodies, b), w, h)
  {
  }

  lemma ScatteredNewBody(u0: real, u1: real, w: real, h: real, uRadius: real, uVx: real, uVy: real)
    requires IsRandom(u0) && IsRandom(u1) && IsRandom(uRadius) && IsRandom(uVx) && IsRandom(uVy)
    requires 0.0 <= w && 0.0 <= h
    ensures Scattered(NewBody(u0, u1 * 0.4 + 0.05, w, h, uRadius, uVx, uVy), w, h)
  {
    var yNorm := u1 * 0.4 + 0.05;
    assert 0.05 <= yNorm <= 0.45;
    var b := NewBody(u0, yNorm, w, h, uRadius, uVx, uVy);
    assert b.x == u0 * w && b.y == yNorm * h;
    FractionOf(u0, w);
    YBand(yNorm, h);
    assert 0.05 * h <= b.y <= 0.45 * h;
  }

  /** A normalised height in [0.05, 0.45] lands in the same band of `h`. */
  lemma YBand(yNorm: real, h: real)
    requires 0.05 <= yNorm <= 0.45 && 0.0 <= h
    ensures 0.05 * h <= yNorm * h <= 0.45 * h
  {
    MulMono(0.05, yNorm, h);
    MulMono(yNorm, 0.45, h);
  }

  /** The ten bodies the preview starts with. */
  function InitialBodies(w: real, h: real, us: seq<real>): (q: seq<Body>)
    requires |us| == 50
    requires forall k :: 0 <= k < |us| ==> IsRandom(us[k])
    requires 0.0 <= w && 0.0 <= h
    ensures |q| == 10
    ensures forall k :: 0 <= k < |q| ==> Scattered(q[k], w, h)
  {
    Scatter([], w, h, us)
  }

  /* ---------------------------- integration ---------------------------- */

  /** Horizontal steering acceleration from the pointer's normalised x. */
  function LateralForce(mx: real): (tx: real)
    ensures mx == 0.5 ==> tx == 0.0
    ensures 0.0 <= mx <= 1.0 ==> -30.0 <= tx <= 30.0
    ensures mx < 0.5 <==> tx < 0.0
  {
    (mx - 0.5) * 60.0
  }

  /** Semi-implicit Euler: velocities first, then positions with the new
      velocities. */
  function Integrate(b: Body, tx: real, dt: real): (b': Body)
    ensures b'.r == b.r
    ensures b'.vx - b.vx == tx * dt && b'.vy - b.vy == Gravity * dt
    ensures b'.x - b.x == b'.vx * dt && b'.y - b.y == b'.vy * dt
    ensures dt == 0.0 ==> b' == b
  {
    var vx := b.vx + tx * dt;
    var vy := b.vy + Gravity * dt;
    b.(vx := vx, vy := vy, x := b.x + vx * dt, y := b.y + vy * dt)
  }

  /** Gravity and the steering force act on every body alike, so they leave
      relative motion alone: the offset between two bodies moves by their
      relative velocity only, and the relative velocity is unchanged. */
  lemma IntegrateRelative(a: Body, b: Body, tx: real, dt: real)
    ensures Integrate(a, tx, dt).vx - Integrate(b, tx, dt).vx == a.vx - b.vx
    ensures Integrate(a, tx, dt).vy - Integrate(b, tx, dt).vy == a.vy - b.vy
    ensures Integrate(a, tx, dt).x - Integrate(b, tx, dt).x == (a.x - b.x) + (a.vx - b.vx) * dt
    ensures Integrate(a, tx, dt).y - Integrate(b, tx, dt).y == (a.y - b.y) + (a.vy - b.vy) * dt
  {
  }

  /** The integration step agrees with the closed form of constant
      acceleration over one step under semi-implicit Euler: a full `a * dt^2`
      displacement term rather than the exact `a * dt^2 / 2`. */
  lemma IntegrateClosedForm(b: Body, tx: real, dt: real)
    ensures Integrate(b, tx, dt).vx - b.vx == tx * dt
    ensures Integrate(b, tx, dt).vy - b.vy == Gravity * dt
    ensures Integrate(b, tx, dt).x - b.x == b.vx * dt + tx * dt * dt
    ensures Integrate(b, tx, dt).y - b.y == b.vy * dt + Gravity * dt * dt
    ensures Integrate(b, tx, dt).r == b.r
  {
  }

  /* ---------------------------- walls ---------------------------- */

  /** One axis of the wall pass: the low wall at 0 is checked first, then the
      high wall at `extent`, the second check seeing the first one's result. */
  function WallAxis(p: real, v: real, r: real, extent: real): (pv: (real, real))
    ensures pv.0 <= extent - r
    ensures 2.0 * r <= extent ==> r <= pv.0
    ensures 2.0 * r <= extent && p - r < 0.0 ==>
              pv.0 == r && pv.1 >= 0.0 && pv.1 == Bounce * Abs(v)
    ensures p - r >= 0.0 && p + r > extent ==>
              pv.0 == extent - r && pv.1 <= 0.0 && -pv.1 == Bounce * Abs(v)
    ensures p - r >= 0.0 && p + r <= extent ==> pv == (p, v)
  {
    var (p1, v1) := if p - r < 0.0 then (r, Abs(v) * Bounce) else (p, v);
    if p1 + r > extent then (extent - r, -Abs(v1) * Bounce) else (p1, v1)
  }

  /** The four wall checks on one body. */
  function WallPass(b: Body, w: real, h: real): (c: Body)
    ensures c.r == b.r
    ensures 2.0 * b.r <= w ==> b.r <= c.x <= w - b.r
    ensures 2.0 * b.r <= h ==> b.r <= c.y <= h - b.r
    ensures b.r <= b.x <= w - b.r ==> c.x == b.x && c.vx == b.vx
    ensures b.r <= b.y <= h - b.r ==> c.y == b.y && c.vy == b.vy
  {
    var (x, vx) := WallAxis(b.x, b.vx, b.r, w);
    var (y, vy) := WallAxis(b.y, b.vy, b.r, h);
    Body(x, y, vx, vy, b.r)
  }

  /** A body headed into the left wall at 1000 px/s over the longest frame is
      clamped to the wall and sent back at 780 px/s. */
  lemma LeftWallExample()
    ensures var c := WallPass(Integrate(Body(20.0, 100.0, -1000.0, 0.0, 10.0), 0.0, 0.032), 400.0, 300.0);
            c.x == 10.0 && c.vx == 780.0
  {
    var b := Integrate(Body(20.0, 100.0, -1000.0, 0.0, 10.0), 0.0, 0.032);
    assert b.x == -12.0;
  }

  /** Integration then the wall pass, for every body: the first loop of `step`. */
  function MoveAll(bodies: seq<Body>, mx: real, dt: real, w: real, h: real): (q: seq<Body>)
    ensures |q| == |bodies|
    ensures forall k :: 0 <= k < |q| ==> q[k].r == bodies[k].r
    ensures forall k :: 0 <= k < |q| && 2.0 * bodies[k].r <= w && 2.0 * bodies[k].r <= h ==>
              Inside(q[k], w, h)
  {
    seq(|bodies|, k requires 0 <= k < |bodies| =>
      WallPass(Integrate(bodies[k], LateralForce(mx), dt), w, h))
  }

  /** A body's centre keeps its radius clear of every wall. */
  predicate Inside(b: Body, w: real, h: real)
  {
    b.r <= b.x <= w - b.r && b.r <= b.y <= h - b.r
  }

  /* ---------------------------- overlap ---------------------------- */

  /** `Math.hypot(dx, dy) || 0.0001`: the distance used for a pair. */
  function PairDistance(a: Body, b: Body, hypot: (real, real) -> real): (d: real)
    ensures d != 0.0
    ensures hypot(b.x - a.x, b.y - a.y) != 0.0 ==> d == hypot(b.x - a.x, b.y - a.y)
    ensures hypot(b.x - a.x, b.y - a.y) == 0.0 ==> d == CoincidentDistance
    ensures hypot(b.x - a.x, b.y - a.y) >= 0.0 ==> d > 0.0
  {
    var d := hypot(b.x - a.x, b.y - a.y);
    if d == 0.0 then CoincidentDistance else d
  }

  predicate Overlapping(a: Body, b: Body, hypot: (real, real) -> real)
  {
    PairDistance(a, b, hypot) < a.r + b.r
  }

  /** The positional correction for one pair: both bodies move by half the
      overlap along the line between them, in opposite directions. */
  function Separate(a: Body, b: Body, hypot: (real, real) -> real): (p: (Body, Body))
    ensures p.0.x + p.1.x == a.x + b.x
    ensures p.0.y + p.1.y == a.y + b.y
    ensures p.0.vx == a.vx && p.0.vy == a.vy && p.0.r == a.r
    ensures p.1.vx == b.vx && p.1.vy == b.vy && p.1.r == b.r
    ensures !Overlapping(a, b, hypot) ==> p == (a, b)
  {
    var dx := b.x - a.x;
    var dy := b.y - a.y;
    var dist := PairDistance(a, b, hypot);
    var min := a.r + b.r;
    if dist < min then
      var overlap := (min - dist) * 0.5;
      var nx := dx / dist;
      var ny := dy / dist;
      (a.(x := a.x - nx * overlap, y := a.y - ny * overlap),
       b.(x := b.x + nx * overlap, y := b.y + ny * overlap))
    else (a, b)
  }

  /** `hypot` is the Euclidean norm at this offset. */
  predicate ExactHypot(hypot: (real, real) -> real, dx: real, dy: real)
  {
    hypot(dx, dy) >= 0.0 && hypot(dx, dy) * hypot(dx, dy) == dx * dx + dy * dy
  }

  /** With an exact `hypot`, an overlapping pair with distinct centres ends the
      correction exactly touching: its new centre distance is the sum of the
      radii, strictly more than before. */
  lemma SeparateTouches(a: Body, b: Body, hypot: (real, real) -> real)
    requires ExactHypot(hypot, b.x - a.x, b.y - a.y)
    requires hypot(b.x - a.x, b.y - a.y) > 0.0
    requires Overlapping(a, b, hypot)
    ensures var p := Separate(a, b, hypot);
            var dx, dy := p.1.x - p.0.x, p.1.y - p.0.y;
            dx * dx + dy * dy == (a.r + b.r) * (a.r + b.r)
  {
    var dx, dy := b.x - a.x, b.y - a.y;
    var dist := hypot(dx, dy);
    var min := a.r + b.r;
    var k := min / dist;
    var p := Separate(a, b, hypot);
    assert p.1.x - p.0.x == dx + 2.0 * (dx / dist) * ((min - dist) * 0.5);
    assert p.1.y - p.0.y == dy + 2.0 * (dy / dist) * ((min - dist) * 0.5);
    ShiftIsScale(dx, dist, min);
    ShiftIsScale(dy, dist, min);
    ScaledNorm(dx, dy, k);
    assert dist * k == min;
    NormTimesScale(dist, k, min);
  }

  /** Moving each end of an offset `d` by half the overlap along the normal
      scales the offset by `min / dist`. */
  lemma ShiftIsScale(d: real, dist: real, min: real)
    requires dist > 0.0
    ensures d + 2.0 * (d / dist) * ((min - dist) * 0.5) == d * (min / dist)
  {
    var n, k := d / dist, min / dist;
    assert n * dist == d;
    assert k * dist == min;
    assert 2.0 * n * ((min - dist) * 0.5) == n * min - n * dist;
    assert d * k == (n * dist) * k == n * (k * dist);
  }

  lemma ScaledNorm(dx: real, dy: real, k: real)
    ensures (dx * k) * (dx * k) + (dy * k) * (dy * k) == (dx * dx + dy * dy) * (k * k)
  {
  }

  lemma NormTimesScale(dist: real, k: real, min: real)
    requires dist * k == min
    ensures (dist * dist) * (k * k) == min * min
  {
    assert (dist * dist) * (k * k) == (dist * k) * (dist * k);
  }

  function SumX(bodies: seq<Body>): real
  {
    if |bodies| == 0 then 0.0 else bodies[0].x + SumX(bodies[1..])
  }

  function SumY(bodies: seq<Body>): real
  {
    if |bodies| == 0 then 0.0 else bodies[0].y + SumY(bodies[1..])
  }

  /** Replacing one body changes the horizontal sum by exactly its change. */
  lemma {:induction false} SumUpdate(bodies: seq<Body>, i: int, v: Body)
    requires 0 <= i < |bodies|
    ensures SumX(bodies[i := v]) == SumX(bodies) - bodies[i].x + v.x
    ensures SumY(bodies[i := v]) == SumY(bodies) - bodies[i].y + v.y
    decreases |bodies|
  {
    if i == 0 {
      assert bodies[i := v][1..] == bodies[1..];
    } else {
      assert bodies[i := v][1..] == bodies[1..][i - 1 := v];
      SumUpdate(bodies[1..], i - 1, v);
    }
  }

  /** No pair of the list overlaps. */
  predicate Separated(bodies: seq<Body>, hypot: (real, real) -> real)
  {
    forall i, j :: 0 <= i < j < |bodies| ==> !Overlapping(bodies[i], bodies[j], hypot)
  }

  /** Reference definition of the pairwise sweep, one pair per call: pair
      `(i, j)` is corrected, then `(i, j + 1)`, and after the last `j` the
      sweep moves on to `(i + 1, i + 2)`. */
  function SweepFrom(bodies: seq<Body>, i: nat, j: nat, hypot: (real, real) -> real): (out: seq<Body>)
    ensures |out| == |bodies|
    decreases |bodies| - i, |bodies| - j
  {
    if i >= |bodies| then bodies
    else if j >= |bodies| then SweepFrom(bodies, i + 1, i + 2, hypot)
    else
      var p := Separate(bodies[i], bodies[j], hypot);
      SweepFrom(bodies[i := p.0][j := p.1], i, j + 1, hypot)
  }

  /** Every pair `i < j` of the list, in the order the nested loops visit them. */
  function Sweep(bodies: seq<Body>, hypot: (real, real) -> real): seq<Body>
  {
    SweepFrom(bodies, 0, 1, hypot)
  }

  /** On two bodies the sweep is exactly one pair correction. */
  lemma SweepPair(a: Body, b: Body, hypot: (real, real) -> real)
    ensures Sweep([a, b], hypot) == [Separate(a, b, hypot).0, Separate(a, b, hypot).1]
  {
    var p := Separate(a, b, hypot);
    var q := [a, b][0 := p.0][1 := p.1];
    assert q == [p.0, p.1];
    assert SweepFrom([a, b], 0, 1, hypot) == SweepFrom(q, 0, 2, hypot);
    assert SweepFrom(q, 0, 2, hypot) == SweepFrom(q, 1, 2, hypot);
    assert SweepFrom(q, 1, 2, hypot) == SweepFrom(q, 2, 3, hypot);
  }

  /** Two overlapping bodies with distinct centres leave the pass exactly
      touching, when `hypot` is the Euclidean norm. */
  lemma SweepPairTouches(a: Body, b: Body, hypot: (real, real) -> real)
    requires ExactHypot(hypot, b.x - a.x, b.y - a.y)
    requires hypot(b.x - a.x, b.y - a.y) > 0.0
    requires Overlapping(a, b, hypot)
    ensures var out := Sweep([a, b], hypot);
            var dx, dy := out[1].x - out[0].x, out[1].y - out[0].y;
            dx * dx + dy * dy == (a.r + b.r) * (a.r + b.r)
  {
    SweepPair(a, b, hypot);
    SeparateTouches(a, b, hypot);
  }

  /** One pair correction inside the sweep: it keeps length, velocities,
      radii and centre totals, is the next step of the reference sweep, and
      changes nothing for a pair that does not overlap. */
  lemma CorrectPair(bodies: seq<Body>, i: nat, j: nat, hypot: (real, real) -> real)
    requires i < j < |bodies|
    ensures var p := Separate(bodies[i], bodies[j], hypot);
            var next := bodies[i := p.0][j := p.1];
            && |next| == |bodies|
            && (forall k :: 0 <= k < |next| ==>
                  next[k].vx == bodies[k].vx && next[k].vy == bodies[k].vy && next[k].r == bodies[k].r)
            && SumX(next) == SumX(bodies) && SumY(next) == SumY(bodies)
            && SweepFrom(bodies, i, j, hypot) == SweepFrom(next, i, j + 1, hypot)
            && (!Overlapping(bodies[i], bodies[j], hypot) ==> next == bodies)
  {
    var p := Separate(bodies[i], bodies[j], hypot);
    SumUpdate(bodies, i, p.0);
    SumUpdate(bodies[i := p.0], j, p.1);
  }

  /** The second loop of `step`: every unordered pair `i < j`, in order, is
      corrected in place, later pairs seeing earlier corrections. Only
      positions move, and only in ways that keep the total of the centres. */
  method OverlapPass(bodies: seq<Body>, hypot: (real, real) -> real) returns (out: seq<Body>)
    ensures |out| == |bodies|
    ensures forall k :: 0 <= k < |out| ==>
              out[k].vx == bodies[k].vx && out[k].vy == bodies[k].vy && out[k].r == bodies[k].r
    ensures SumX(out) == SumX(bodies) && SumY(out) == SumY(bodies)
    ensures Separated(bodies, hypot) ==> out == bodies
    ensures out == Sweep(bodies, hypot)
  {
    out := bodies;
    var i := 0;
    while i < |out|
      invariant 0 <= i <= |out| == |bodies|
      invariant SweepFrom(out, i, i + 1, hypot) == Sweep(bodies, hypot)
      invariant forall k :: 0 <= k < |out| ==>
                  out[k].vx == bodies[k].vx && out[k].vy == bodies[k].vy && out[k].r == bodies[k].r
      invariant SumX(out) == SumX(bodies) && SumY(out) == SumY(bodies)
      invariant Separated(bodies, hypot) ==> out == bodies
    {
      var j := i + 1;
      while j < |out|
        invariant i + 1 <= j <= |out| == |bodies|
        invariant forall k :: 0 <= k < |out| ==>
                    out[k].vx == bodies[k].vx && out[k].vy == bodies[k].vy && out[k].r == bodies[k].r
        invariant SumX(out) == SumX(bodies) && SumY(out) == SumY(bodies)
        invariant Separated(bodies, hypot) ==> out == bodies
        invariant SweepFrom(out, i, j, hypot) == Sweep(bodies, hypot)
      {
        var p := Separate(out[i], out[j], hypot);
        CorrectPair(out, i, j, hypot);
        out := out[i := p.0][j := p.1];
        j := j + 1;
      }
      i := i + 1;
    }
  }

  /** One physics frame: integrate and bounce every body, then resolve
      overlaps. Containment is not promised afterwards, since the overlap pass
      may push a body back past a wall. */
  method Step(bodies: seq<Body>, mx: real, dt: real, w: real, h: real,
              hypot: (real, real) -> real) returns (out: seq<Body>)
    ensures |out| == |bodies|
    ensures out == Sweep(MoveAll(bodies, mx, dt, w, h), hypot)
    ensures forall k :: 0 <= k < |out| ==> out[k].r == bodies[k].r
    ensures forall k :: 0 <= k < |out| ==>
              out[k].vx == MoveAll(bodies, mx, dt, w, h)[k].vx && out[k].vy == MoveAll(bodies, mx, dt, w, h)[k].vy
    ensures SumX(out) == SumX(MoveAll(bodies, mx, dt, w, h))
    ensures SumY(out) == SumY(MoveAll(bodies, mx, dt, w, h))
    ensures Separated(MoveAll(bodies, mx, dt, w, h), hypot) ==>
              forall k :: 0 <= k < |out| && 2.0 * bodies[k].r <= w && 2.0 * bodies[k].r <= h ==>
                Inside(out[k], w, h)
  {
    var moved := MoveAll(bodies, mx, dt, w, h);
    out := OverlapPass(moved, hypot);
  }
}

=== FILE: scheduler.dfy ===
/**
  The shared animation tick: the elapsed time handed to every preview's step
  is the wall-clock delta in seconds, capped so that a long pause (a
  backgrounded tab) cannot make one integration step arbitrarily large.
 */
module Scheduler {
  import opened JsMath

  /** The longest step a preview is ever given, in seconds. */
  const MaxStep: real := 0.032

  /** `Math.min(0.032, (now - last) / 1000)` for timestamps in milliseconds. */
  function FrameDt(now: real, last: real): (dt: real)
    ensures dt <= MaxStep
    ensures (now - last) / 1000.0 <= MaxStep ==> dt * 1000.0 == now - last
    ensures (now - last) / 1000.0 >= MaxStep ==> dt == MaxStep
    ensures last <= now ==> 0.0 <= dt
  {
    MinReal(MaxStep, (now - last) / 1000.0)
  }

  /** A 100 ms gap between frames is cut to 32 ms; a 16 ms gap passes through. */
  lemma FrameDtExamples()
    ensures FrameDt(1100.0, 1000.0) == MaxStep
    ensures FrameDt(1016.0, 1000.0) == 0.016
  {
  }

  /** The step never exceeds the time that actually elapsed when that time is
      positive, and never exceeds the cap. */
  lemma FrameDtBelowElapsed(now: real, last: real)
    requires last <= now
    ensures 0.0 <= FrameDt(now, last) * 1000.0 <= now - last
  {
  }
}

=== FILE: surface.dfy ===
/**
  Drawing-surface sizing for the preview canvases: the device pixel ratio is
  clamped once when the surface is attached, and every resize recomputes the
  logical size (whole pixels, at least one) and the backing-store size
  (logical size times the ratio, floored).
 */
module Surface {
  import opened JsMath

  /** Sizes after a resize: logical units used by the drawing code and the
      backing store the browser allocates. */
  datatype Size = Size(width: int, height: int, backingWidth: int, backingHeight: int)

  /** `Math.max(1, Math.min(2, devicePixelRatio || 1))`: a missing (zero)
      ratio counts as 1, and the result is clamped into [1, 2]. */
  function ClampDpr(raw: real): (dpr: real)
    ensures 1.0 <= dpr <= 2.0
    ensures 1.0 <= raw <= 2.0 ==> dpr == raw
    ensures raw == 0.0 || raw < 1.0 ==> dpr == 1.0
    ensures raw > 2.0 ==> dpr == 2.0
  {
    MaxReal(1.0, MinReal(2.0, if raw == 0.0 then 1.0 else raw))
  }

  /** Logical extent of one axis: the on-screen extent floored, at least 1. */
  function LogicalExtent(extent: real): (n: int)
    ensures 1 <= n
    ensures n as real <= extent || n == 1
    ensures extent < n as real + 1.0 || n == 1
    ensures extent >= 1.0 ==> n == extent.Floor
  {
    if extent.Floor < 1 then 1 else extent.Floor
  }

  /** Backing-store extent of one axis: the logical extent scaled by the ratio
      and floored. It never falls below the logical extent and is at most
      twice it. */
  function BackingExtent(logical: int, dpr: real): (n: int)
    requires 1 <= logical
    requires 1.0 <= dpr <= 2.0
    ensures n as real <= logical as real * dpr < n as real + 1.0
    ensures logical <= n <= 2 * logical
    ensures dpr == 1.0 ==> n == logical
    ensures dpr == 2.0 ==> n == 2 * logical
  {
    var v := Scaled(logical as real, dpr);
    FloorWithin(v, logical, 2 * logical);
    v.Floor
  }

  /** A length scaled by a ratio in [1, 2]. */
  function Scaled(x: real, dpr: real): (v: real)
    requires 1.0 <= x
    requires 1.0 <= dpr <= 2.0
    ensures v == x * dpr
    ensures x <= v <= 2.0 * x
    ensures dpr == 1.0 ==> v == x
    ensures dpr == 2.0 ==> v == 2.0 * x
  {
    MulMono(1.0, dpr, x);
    MulMono(dpr, 2.0, x);
    x * dpr
  }

  /** Flooring keeps a value inside an interval with integer ends, and an
      integer-valued real floors to itself. */
  lemma FloorWithin(v: real, lo: int, hi: int)
    ensures lo as real <= v <= hi as real ==> lo <= v.Floor <= hi
    ensures v == lo as real ==> v.Floor == lo
    ensures v == hi as real ==> v.Floor == hi
  {
  }

  /** The `resize` handler for a measured rectangle and the surface's ratio. */
  function Resize(rectWidth: real, rectHeight: real, dpr: real): (s: Size)
    requires 1.0 <= dpr <= 2.0
    ensures 1 <= s.width && 1 <= s.height
    ensures s.width <= s.backingWidth <= 2 * s.width
    ensures s.height <= s.backingHeight <= 2 * s.height
    ensures s.backingWidth as real <= s.width as real * dpr < s.backingWidth as real + 1.0
    ensures s.backingHeight as real <= s.height as real * dpr < s.backingHeight as real + 1.0
    ensures rectWidth >= 1.0 ==> s.width as real <= rectWidth < s.width as real + 1.0
    ensures rectHeight >= 1.0 ==> s.height as real <= rectHeight < s.height as real + 1.0
    ensures rectWidth < 2.0 ==> s.width == 1
    ensures rectHeight < 2.0 ==> s.height == 1
  {
    var w := LogicalExtent(rectWidth);
    var h := LogicalExtent(rectHeight);
    Size(w, h, BackingExtent(w, dpr), BackingExtent(h, dpr))
  }
}

=== FILE: theme.dfy ===
/**
  Accent theme selection: a palette of three themes and an index that any
  integer (negative ones included) is folded onto, with JavaScript's
  truncating remainder applied twice.
 */
module Theme {
  import opened JsMath

  /** Number of entries in the theme palette. */
  const ThemeCount: int := 3

  /** The folding that `applyTheme` performs on its argument. */
  function NormaliseTheme(idx: int): (r: int)
    ensures 0 <= r < ThemeCount
    ensures (idx - r) % ThemeCount == 0
  {
    JsRem(JsRem(idx, ThemeCount) + ThemeCount, ThemeCount)
  }

  /** The index `nextTheme` moves to from the current one. */
  function NextTheme(themeIndex: int): (r: int)
    ensures 0 <= r < ThemeCount
    ensures (r - themeIndex - 1) % ThemeCount == 0
  {
    NormaliseTheme(themeIndex + 1)
  }

  /** The double truncating remainder agrees with the mathematical (Euclidean)
      residue for every integer, so the palette slot is always `idx mod 3`. */
  lemma NormaliseIsResidue(idx: int)
    ensures NormaliseTheme(idx) == idx % ThemeCount
  {
  }

  /** Only normalised indices are reachable, and on them `nextTheme` walks the
      cycle 0, 1, 2, 0. */
  lemma NextThemeCycles(themeIndex: int)
    requires 0 <= themeIndex < ThemeCount
    ensures NextTheme(themeIndex) == if themeIndex == ThemeCount - 1 then 0 else themeIndex + 1
  {
  }

  /** Three successive `nextTheme` calls return to the starting theme. */
  lemma NextThemeThreeTimes(themeIndex: int)
    requires 0 <= themeIndex < ThemeCount
    ensures NextTheme(NextTheme(NextTheme(themeIndex))) == themeIndex
  {
  }
}

=== FILE: topography.dfy ===
/**
  The ring/tube preview: the control state that survives between frames
  (three exponentially smoothed scalars and a palette cycle), the three-way
  blend of motion modes, the perspective projection, and the index arithmetic
  of the ring polylines.

  The point positions themselves come from sines and cosines and are inputs
  here; everything is exact real arithmetic.
 */
module Topography {
  import opened JsMath

  const Rings: int := 54
  const Tube: int := 22
  /** Share of the remaining distance to its target a smoothed value covers
      per frame. */
  const Smoothing: real := 0.04
  /** Perspective camera: depth offset and focal length. */
  const CameraZ: real := -150.0
  const Focal: real := 420.0
  /** Palette cycle: seconds per colour pair and the per-frame advance. */
  const CycleSeconds: real := 3.0
  const FrameSeconds: real := 1.0 / 60.0

  /* ---------------------------- smoothing ---------------------------- */

  /** `value += (target - value) * 0.04`. */
  function Smooth(value: real, target: real): (r: real)
    ensures value <= target ==> value <= r <= target
    ensures target <= value ==> target <= r <= value
    ensures target - r == (1.0 - Smoothing) * (target - value)
    ensures value != target ==> r != value && r != target
  {
    value + (target - value) * Smoothing
  }

  /** `n` frames of smoothing toward a fixed target. */
  function SmoothFrames(value: real, target: real, n: nat): real
    decreases n
  {
    if n == 0 then value else SmoothFrames(Smooth(value, target), target, n - 1)
  }

  function Pow(b: real, n: nat): real
  {
    if n == 0 then 1.0 else b * Pow(b, n - 1)
  }

  /** The distance to a held target decays geometrically: after `n` frames it
      is `0.96^n` of the starting distance. */
  lemma {:induction false} SmoothFramesError(value: real, target: real, n: nat)
    ensures target - SmoothFrames(value, target, n) == Pow(1.0 - Smoothing, n) * (target - value)
    decreases n
  {
    if n > 0 {
      var q := 1.0 - Smoothing;
      var v1 := Smooth(value, target);
      SmoothFramesError(v1, target, n - 1);
      assert SmoothFrames(value, target, n) == SmoothFrames(v1, target, n - 1);
      assert Pow(q, n) == q * Pow(q, n - 1);
      Regroup(Pow(q, n - 1), q, target - value, target - v1, target - SmoothFrames(v1, target, n - 1));
    }
  }

  /** `p * (q * e) == (q * p) * e`, fed through the two equations that link
      one frame's distance to the next. */
  lemma Regroup(p: real, q: real, e: real, e1: real, d: real)
    requires e1 == q * e && d == p * e1
    ensures d == (q * p) * e
  {
  }

  /** Smoothing toward a held target approaches it monotonically and never
      overshoots: every frame lies between the previous frame and the target. */
  lemma {:induction false} SmoothFramesMonotone(value: real, target: real, n: nat)
    ensures value <= target ==>
              value <= SmoothFrames(value, target, n) <= SmoothFrames(value, target, n + 1) <= target
    ensures target <= value ==>
              target <= SmoothFrames(value, target, n + 1) <= SmoothFrames(value, target, n) <= value
    decreases n
  {
    if n > 0 {
      SmoothFramesMonotone(Smooth(value, target), target, n - 1);
    }
  }

  /** A smoothed value stays in any interval that holds both it and its target. */
  lemma {:induction false} SmoothFramesStaysIn(value: real, target: real, lo: real, hi: real, n: nat)
    requires lo <= value <= hi && lo <= target <= hi
    ensures lo <= SmoothFrames(value, target, n) <= hi
    decreases n
  {
    if n > 0 {
      SmoothFramesStaysIn(Smooth(value, target), target, lo, hi, n - 1);
    }
  }

  /* ---------------------------- control state ---------------------------- */

  datatype Controls = Controls(modeTransition: real, angleX: real, angleY: real)

  /** Mode target from the pointer's normalised x: 0 at the left edge, 2 at the right. */
  function ModeTarget(mx: real): (m: real)
    ensures 0.0 <= mx <= 1.0 ==> 0.0 <= m <= 2.0
    ensures mx == 0.0 ==> m == 0.0
    ensures mx == 0.5 ==> m == 1.0
    ensures mx == 1.0 ==> m == 2.0
  {
    mx * 2.0
  }

  /** Rotation target: pointer offset from the centre plus a slow drift in time. */
  function AngleTarget(pointer: real, t: real): (a: real)
    ensures pointer == 0.5 ==> a == t * 0.2
    ensures 0.0 <= pointer <= 1.0 ==> t * 0.2 - 0.45 <= a <= t * 0.2 + 0.45
  {
    (pointer - 0.5) * 0.9 + t * 0.2
  }

  /** The control update at the start of `buildGeometry`. */
  function UpdateControls(c: Controls, mx: real, my: real, t: real): (d: Controls)
    ensures 0.0 <= mx <= 1.0 && 0.0 <= c.modeTransition <= 2.0 ==> 0.0 <= d.modeTransition <= 2.0
    ensures ModeTarget(mx) - d.modeTransition == (1.0 - Smoothing) * (ModeTarget(mx) - c.modeTransition)
    ensures AngleTarget(my, t) - d.angleX == (1.0 - Smoothing) * (AngleTarget(my, t) - c.angleX)
    ensures AngleTarget(mx, t) - d.angleY == (1.0 - Smoothing) * (AngleTarget(mx, t) - c.angleY)
  {
    Controls(Smooth(c.modeTransition, ModeTarget(mx)),
             Smooth(c.angleX, AngleTarget(my, t)),
             Smooth(c.angleY, AngleTarget(mx, t)))
  }

  /* ---------------------------- mode weights ---------------------------- */

  datatype Weights = Weights(gentleTwist: real, verticalWave: real, spiralFlow: real)

  /** The piecewise-linear blend of the three motion modes: below 1 the first
      fades into the second, from 1 on the second fades into the third. */
  function ModeWeights(m: real): (w: Weights)
    ensures w.gentleTwist + w.verticalWave + w.spiralFlow == 1.0
    ensures 0.0 <= m <= 2.0 ==>
              && 0.0 <= w.gentleTwist <= 1.0
              && 0.0 <= w.verticalWave <= 1.0
              && 0.0 <= w.spiralFlow <= 1.0
    ensures m < 1.0 ==> w.spiralFlow == 0.0
    ensures m >= 1.0 ==> w.gentleTwist == 0.0
    ensures m == 0.0 ==> w.gentleTwist == 1.0
    ensures m == 1.0 ==> w.verticalWave == 1.0
    ensures m == 2.0 ==> w.spiralFlow == 1.0
  {
    if m < 1.0 then Weights(1.0 - m, m, 0.0)
    else Weights(0.0, 2.0 - m, m - 1.0)
  }

  /** Half-way between two neighbouring modes both weigh one half: at 0.5 the
      first two modes, at 1.5 the last two. */
  lemma ModeWeightsMidpoints()
    ensures ModeWeights(0.5) == Weights(0.5, 0.5, 0.0)
    ensures ModeWeights(1.5) == Weights(0.0, 0.5, 0.5)
  {
  }

  /** Blending three per-mode contributions by the weights. */
  function Blend(w: Weights, a0: real, a1: real, a2: real): (v: real)
    ensures a0 == a1 == a2 ==> v == a0 * (w.gentleTwist + w.verticalWave + w.spiralFlow)
    ensures Convex(w) ==> MinReal(a0, MinReal(a1, a2)) <= v <= MaxReal(a0, MaxReal(a1, a2))
  {
    ConvexWithin(w, a0, a1, a2);
    a0 * w.gentleTwist + a1 * w.verticalWave + a2 * w.spiralFlow
  }

  /** Non-negative weights summing to one. */
  predicate Convex(w: Weights)
  {
    && 0.0 <= w.gentleTwist && 0.0 <= w.verticalWave && 0.0 <= w.spiralFlow
    && w.gentleTwist + w.verticalWave + w.spiralFlow == 1.0
  }

  lemma ConvexWithin(w: Weights, a0: real, a1: real, a2: real)
    ensures Convex(w) ==>
              var v := a0 * w.gentleTwist + a1 * w.verticalWave + a2 * w.spiralFlow;
              MinReal(a0, MinReal(a1, a2)) <= v <= MaxReal(a0, MaxReal(a1, a2))
  {
    if Convex(w) {
      var lo, hi := MinReal(a0, MinReal(a1, a2)), MaxReal(a0, MaxReal(a1, a2));
      var w0, w1, w2 := w.gentleTwist, w.verticalWave, w.spiralFlow;
      assert lo <= a0 <= hi && lo <= a1 <= hi && lo <= a2 <= hi;
      WeightedBetween(lo, a0, a1, a2, hi, w0, w1, w2);
      assert lo <= a0 * w0 + a1 * w1 + a2 * w2 <= hi;
    }
  }

  /** A contribution shared by all three modes passes through the blend
      unchanged, and with `m` in [0, 2] any blend lies between the smallest
      and largest contribution. */
  lemma BlendIsConvex(m: real, a0: real, a1: real, a2: real)
    requires 0.0 <= m <= 2.0
    ensures a0 == a1 == a2 ==> Blend(ModeWeights(m), a0, a1, a2) == a0
    ensures var v := Blend(ModeWeights(m), a0, a1, a2);
            MinReal(a0, MinReal(a1, a2)) <= v <= MaxReal(a0, MaxReal(a1, a2))
  {
    var w := ModeWeights(m);
    var lo := MinReal(a0, MinReal(a1, a2));
    var hi := MaxReal(a0, MaxReal(a1, a2));
    WeightedBetween(lo, a0, a1, a2, hi, w.gentleTwist, w.verticalWave, w.spiralFlow);
    Distrib3(a0, w.gentleTwist, w.verticalWave, w.spiralFlow);
  }

  /** A convex combination lies between bounds of its terms. */
  lemma WeightedBetween(lo: real, a0: real, a1: real, a2: real, hi: real, w0: real, w1: real, w2: real)
    requires lo <= a0 <= hi && lo <= a1 <= hi && lo <= a2 <= hi
    requires 0.0 <= w0 && 0.0 <= w1 && 0.0 <= w2 && w0 + w1 + w2 == 1.0
    ensures lo <= a0 * w0 + a1 * w1 + a2 * w2 <= hi
  {
    WeightedLower(lo, a0, a1, a2, w0, w1, w2);
    WeightedLower(-hi, -a0, -a1, -a2, w0, w1, w2);
    assert (-a0) * w0 + (-a1) * w1 + (-a2) * w2 == -(a0 * w0 + a1 * w1 + a2 * w2);
  }

  lemma WeightedLower(lo: real, a0: real, a1: real, a2: real, w0: real, w1: real, w2: real)
    requires lo <= a0 && lo <= a1 && lo <= a2
    requires 0.0 <= w0 && 0.0 <= w1 && 0.0 <= w2 && w0 + w1 + w2 == 1.0
    ensures lo <= a0 * w0 + a1 * w1 + a2 * w2
  {
    MulNonNeg(a0 - lo, w0);
    MulNonNeg(a1 - lo, w1);
    MulNonNeg(a2 - lo, w2);
    assert a0 * w0 + a1 * w1 + a2 * w2 - lo
        == (a0 - lo) * w0 + (a1 - lo) * w1 + (a2 - lo) * w2 - lo * (w0 + w1 + w2 - 1.0);
  }

  lemma Distrib3(c: real, w0: real, w1: real, w2: real)
    ensures c * w0 + c * w1 + c * w2 == c * (w0 + w1 + w2)
  {
  }

  /* ---------------------------- projection ---------------------------- */

  datatype Projected = Projected(sx: real, sy: real, scale: real)

  /** Perspective divide with the depth floored at 1. */
  function Project(x: real, y: real, z: real, w: real, h: real): (p: Projected)
    ensures 0.0 < p.scale <= Focal
    ensures z - CameraZ >= 1.0 ==> p.scale * (z - CameraZ) == Focal
    ensures z - CameraZ <= 1.0 ==> p.scale == Focal
    ensures p.sx - w * 0.5 == x * p.scale && p.sy - h * 0.52 == y * p.scale
    ensures x == 0.0 ==> p.sx == w * 0.5
    ensures y == 0.0 ==> p.sy == h * 0.52
  {
    var depth := z - CameraZ;
    var s := Focal / MaxReal(1.0, depth);
    Projected(w * 0.5 + x * s, h * 0.52 + y * s, s)
  }

  /** The pinhole law: past the depth floor a point's offset from the screen
      centre (w/2, 0.52 h), times its depth from the camera, is the focal
      length times its offset in the scene, on both axes. */
  lemma ProjectPinhole(x: real, y: real, z: real, w: real, h: real)
    requires z - CameraZ >= 1.0
    ensures var p := Project(x, y, z, w, h);
            && (p.sx - w * 0.5) * (z - CameraZ) == Focal * x
            && (p.sy - h * 0.52) * (z - CameraZ) == Focal * y
  {
    var p := Project(x, y, z, w, h);
    var d := z - CameraZ;
    assert p.scale * d == Focal;
    assert (p.sx - w * 0.5) * d == x * (p.scale * d);
    assert (p.sy - h * 0.52) * d == y * (p.scale * d);
  }

  /** Deeper points are drawn no larger: the scale never increases with depth,
      and strictly decreases once both points are past the floor. */
  lemma ProjectScaleMonotone(x: real, y: real, z1: real, z2: real, w: real, h: real)
    requires z1 <= z2
    ensures Project(x, y, z1, w, h).scale >= Project(x, y, z2, w, h).scale
    ensures z1 - CameraZ >= 1.0 && z1 < z2 ==>
              Project(x, y, z1, w, h).scale > Project(x, y, z2, w, h).scale
  {
    var d1 := MaxReal(1.0, z1 - CameraZ);
    var d2 := MaxReal(1.0, z2 - CameraZ);
    DivideAntitone(Focal, d1, d2);
  }

  lemma DivideAntitone(f: real, d1: real, d2: real)
    requires 0.0 < f && 0.0 < d1 <= d2
    ensures f / d1 >= f / d2
    ensures d1 < d2 ==> f / d1 > f / d2
  {
    var s1, s2 := f / d1, f / d2;
    assert s1 * d1 == f && s2 * d2 == f;
    assert s1 > 0.0 && s2 > 0.0;
    assert s1 * d2 - s2 * d2 == s1 * (d2 - d1);
    if d1 < d2 {
      assert s1 * (d2 - d1) > 0.0;
    } else {
      assert s1 * (d2 - d1) == 0.0;
    }
    assert (s1 - s2) * d2 == s1 * (d2 - d1);
  }

  /** The flat screen-coordinate buffer `buildGeometry` fills: `x, y` of each
      projected point in turn. */
  function ProjectCloud(pts: seq<(real, real, real)>, w: real, h: real): (scr: seq<real>)
    ensures |scr| == 2 * |pts|
    ensures forall k :: 0 <= k < |pts| ==>
              scr[2 * k] == Project(pts[k].0, pts[k].1, pts[k].2, w, h).sx &&
              scr[2 * k + 1] == Project(pts[k].0, pts[k].1, pts[k].2, w, h).sy
  {
    if |pts| == 0 then []
    else
      var p := Project(pts[0].0, pts[0].1, pts[0].2, w, h);
      var rest := ProjectCloud(pts[1..], w, h);
      assert forall k :: 1 <= k < |pts| ==> ([p.sx, p.sy] + rest)[2 * k] == rest[2 * (k - 1)];
      [p.sx, p.sy] + rest
  }

  /* ---------------------------- ring polylines ---------------------------- */

  /** The cursor walk of one stroke pass in `drawTube`: each ring reads its
      `Tube` points in order and then closes on its first point, read back at
      `(i * Tube) * 2`. Every read is within the buffer of `Rings * Tube`
      points. */
  method RingPolylines(scr: seq<real>) returns (rings: seq<seq<(real, real)>>)
    requires |scr| == Rings * Tube * 2
    ensures |rings| == Rings
    ensures forall i :: 0 <= i < Rings ==> |rings[i]| == Tube + 1
    ensures forall i, j :: 0 <= i < Rings && 0 <= j < Tube ==>
              rings[i][j] == (scr[(i * Tube + j) * 2], scr[(i * Tube + j) * 2 + 1])
    ensures forall i :: 0 <= i < Rings ==> rings[i][Tube] == rings[i][0]
  {
    rings := [];
    var sid := 0;
    var i := 0;
    while i < Rings
      invariant 0 <= i <= Rings
      invariant sid == (i * Tube) * 2
      invariant |rings| == i
      invariant forall a :: 0 <= a < i ==> |rings[a]| == Tube + 1
      invariant forall a, j :: 0 <= a < i && 0 <= j < Tube ==>
                  rings[a][j] == (scr[(a * Tube + j) * 2], scr[(a * Tube + j) * 2 + 1])
      invariant forall a :: 0 <= a < i ==> rings[a][Tube] == rings[a][0]
    {
      var ring: seq<(real, real)> := [];
      var j := 0;
      while j < Tube
        invariant 0 <= j <= Tube
        invariant sid == (i * Tube + j) * 2
        invariant |ring| == j
        invariant forall k :: 0 <= k < j ==>
                    ring[k] == (scr[(i * Tube + k) * 2], scr[(i * Tube + k) * 2 + 1])
      {
        var sx := scr[sid];
        var sy := scr[sid + 1];
        sid := sid + 2;
        ring := ring + [(sx, sy)];
        j := j + 1;
      }
      var sx0 := scr[(i * Tube) * 2];
      var sy0 := scr[(i * Tube) * 2 + 1];
      ring := ring + [(sx0, sy0)];
      rings := rings + [ring];
      i := i + 1;
    }
  }

  /** A full frame of points, projected, is exactly the buffer the ring
      polylines read. */
  lemma CloudFillsBuffer(pts: seq<(real, real, real)>, w: real, h: real)
    requires |pts| == Rings * Tube
    ensures |pts| == 1188
    ensures |ProjectCloud(pts, w, h)| == Rings * Tube * 2
  {
  }

  /* ---------------------------- palette cycle ---------------------------- */

  datatype Rgb = Rgb(red: int, green: int, blue: int)

  /** The three accent colours: purple, pink, blue. */
  const Palette: seq<Rgb> := [Rgb(122, 44, 255), Rgb(255, 59, 212), Rgb(31, 107, 255)]

  datatype PaletteCycle = PaletteCycle(colorIndex: int, colorTime: real)

  predicate ValidCycle(c: PaletteCycle)
  {
    0 <= c.colorIndex < |Palette| && 0.0 <= c.colorTime <= CycleSeconds
  }

  /** The per-frame palette update of `drawTube`: a fixed 1/60 s advance, and
      past 3 s the time resets and the colour pair moves on. */
  function AdvanceCycle(c: PaletteCycle): (d: PaletteCycle)
    ensures d.colorTime <= CycleSeconds
    ensures ValidCycle(c) ==> ValidCycle(d)
    ensures c.colorTime + FrameSeconds <= CycleSeconds ==>
              d == c.(colorTime := c.colorTime + FrameSeconds)
    ensures c.colorTime + FrameSeconds > CycleSeconds && ValidCycle(c) ==>
              d.colorTime == 0.0 && d.colorIndex == (c.colorIndex + 1) % |Palette|
  {
    var t := c.colorTime + FrameSeconds;
    if t > CycleSeconds then PaletteCycle(JsRem(c.colorIndex + 1, |Palette|), 0.0)
    else PaletteCycle(c.colorIndex, t)
  }

  function AdvanceFrames(c: PaletteCycle, n: nat): PaletteCycle
    decreases n
  {
    if n == 0 then c else AdvanceFrames(AdvanceCycle(c), n - 1)
  }

  /** From the start of a window, the colour time after `n <= 180` frames is
      `n / 60`, and the pair does not change. */
  lemma {:induction false} WindowRuns(i: int, n: nat)
    requires 0 <= i < |Palette| && n <= 180
    ensures AdvanceFrames(PaletteCycle(i, 0.0), n) == PaletteCycle(i, n as real / 60.0)
  {
    if n > 0 {
      WindowRuns(i, n - 1);
      AdvanceFramesLast(PaletteCycle(i, 0.0), n - 1);
      assert (n - 1) as real / 60.0 + FrameSeconds == n as real / 60.0;
    }
  }

  lemma {:induction false} AdvanceFramesLast(c: PaletteCycle, n: nat)
    ensures AdvanceFrames(c, n + 1) == AdvanceCycle(AdvanceFrames(c, n))
    decreases n
  {
    if n > 0 {
      AdvanceFramesLast(AdvanceCycle(c), n - 1);
    }
  }

  /** Each colour pair is held for 181 frames; the 181st moves to the next pair
      with the time reset, so the palette cycle has period 3 * 181 frames. */
  lemma WindowEnds(i: int)
    requires 0 <= i < |Palette|
    ensures AdvanceFrames(PaletteCycle(i, 0.0), 181) == PaletteCycle((i + 1) % |Palette|, 0.0)
  {
    WindowRuns(i, 180);
    AdvanceFramesLast(PaletteCycle(i, 0.0), 180);
  }

  /** `lerp(a, b, t)`. */
  function Lerp(a: real, b: real, t: real): (v: real)
    ensures t == 0.0 ==> v == a
    ensures t == 1.0 ==> v == b
    ensures 0.0 <= t <= 1.0 ==> MinReal(a, b) <= v <= MaxReal(a, b)
  {
    LerpBetween(a, b, t);
    a + (b - a) * t
  }

  lemma LerpBetween(a: real, b: real, t: real)
    ensures 0.0 <= t <= 1.0 ==> MinReal(a, b) <= a + (b - a) * t <= MaxReal(a, b)
  {
    if 0.0 <= t <= 1.0 {
      assert (b - a) * t - (b - a) == (b - a) * (t - 1.0);
      if a <= b {
        MulNonNeg(b - a, t);
        MulNonNeg(b - a, 1.0 - t);
      } else {
        MulNonNeg(a - b, t);
        MulNonNeg(a - b, 1.0 - t);
      }
    }
  }

  /** Rounded interpolation of one channel. */
  function LerpChannel(a: int, b: int, t: real): (v: int)
    ensures t == 0.0 ==> v == a
    ensures t == 1.0 ==> v == b
    ensures 0.0 <= t <= 1.0 ==> MinInt(a, b) <= v <= MaxInt(a, b)
  {
    var x := Lerp(a as real, b as real, t);
    RoundWithin(x, MinInt(a, b), MaxInt(a, b));
    JsRound(x)
  }

  /** `lerpColor`: each channel interpolated and rounded. */
  function LerpColor(c1: Rgb, c2: Rgb, t: real): (c: Rgb)
    ensures t == 0.0 ==> c == c1
    ensures t == 1.0 ==> c == c2
    ensures 0.0 <= t <= 1.0 ==>
              && MinInt(c1.red, c2.red) <= c.red <= MaxInt(c1.red, c2.red)
              && MinInt(c1.green, c2.green) <= c.green <= MaxInt(c1.green, c2.green)
              && MinInt(c1.blue, c2.blue) <= c.blue <= MaxInt(c1.blue, c2.blue)
  {
    Rgb(LerpChannel(c1.red, c2.red, t), LerpChannel(c1.green, c2.green, t),
        LerpChannel(c1.blue, c2.blue, t))
  }

  /** The stroke colour of a frame: between the current palette entry and the
      next, by the fraction of the 3-second window elapsed. */
  function CycleColor(c: PaletteCycle): (cc: Rgb)
    requires ValidCycle(c)
    ensures 0 <= cc.red <= 255 && 0 <= cc.green <= 255 && 0 <= cc.blue <= 255
    ensures c.colorTime == 0.0 ==> cc == Palette[c.colorIndex]
    ensures c.colorTime == CycleSeconds ==> cc == Palette[(c.colorIndex + 1) % |Palette|]
  {
    var t := c.colorTime / CycleSeconds;
    assert 0.0 <= t <= 1.0;
    LerpColor(Palette[c.colorIndex], Palette[JsRem(c.colorIndex + 1, |Palette|)], t)
  }

  /* ---------------------------- whole frame ---------------------------- */

  datatype State = State(controls: Controls, cycle: PaletteCycle)

  predicate ValidState(s: State)
  {
    0.0 <= s.controls.modeTransition <= 2.0 && ValidCycle(s.cycle)
  }

  /** The state a fresh preview starts in. */
  const Initial: State := State(Controls(0.0, 0.0, 0.0), PaletteCycle(0, 0.0))

  /** The persistent state changes of one `draw(t)`: the control update of
      `buildGeometry`, then the palette advance of `drawTube`. With the pointer
      over the surface the state stays valid, so the weights and the colour
      computed from it stay in range. */
  function Frame(s: State, mx: real, my: real, t: real): (s': State)
    ensures 0.0 <= mx <= 1.0 && ValidState(s) ==> ValidState(s')
    ensures s'.controls == UpdateControls(s.controls, mx, my, t)
    ensures s'.cycle == AdvanceCycle(s.cycle)
  {
    State(UpdateControls(s.controls, mx, my, t), AdvanceCycle(s.cycle))
  }

  /** Before any frame a fresh preview is valid, its weights are all on the
      first mode, and its palette colour is the first entry. */
  lemma InitialIsValid()
    ensures ValidState(Initial)
    ensures Initial.controls.modeTransition == 0.0 && ModeWeights(Initial.controls.modeTransition).gentleTwist == 1.0
    ensures CycleColor(Initial.cycle) == Palette[0]
  {
  }

  /** The first frame already smooths and advances before anything is drawn:
      `modeTransition` has moved 4% of the way to `2 mx`, and the stroke is
      one 180th of the way from the first palette colour to the second. */
  lemma FirstFrame(mx: real, my: real, t: real)
    ensures Frame(Initial, mx, my, t).controls.modeTransition == mx * 0.08
    ensures mx == 0.5 ==> ModeWeights(Frame(Initial, mx, my, t).controls.modeTransition) == Weights(0.96, 0.04, 0.0)
    ensures Frame(Initial, mx, my, t).cycle == PaletteCycle(0, FrameSeconds)
    ensures CycleColor(Frame(Initial, mx, my, t).cycle) == Rgb(123, 44, 255)
  {
  }

  /** The states a run of frames passes through, one frame per input triple
      `(mx, my, t)`. */
  function Run(s: State, frames: seq<(real, real, real)>): State
    decreases |frames|
  {
    if |frames| == 0 then s else Run(Frame(s, frames[0].0, frames[0].1, frames[0].2), frames[1..])
  }

  /** Validity is an invariant of the animation: any run of frames with the
      pointer over the surface keeps the state valid, so from `Initial` the
      weights and the colour stay in range for ever. */
  lemma {:induction false} RunStaysValid(s: State, frames: seq<(real, real, real)>)
    requires ValidState(s)
    requires forall k :: 0 <= k < |frames| ==> 0.0 <= frames[k].0 <= 1.0
    ensures ValidState(Run(s, frames))
    decreases |frames|
  {
    if |frames| > 0 {
      RunStaysValid(Frame(s, frames[0].0, frames[0].1, frames[0].2), frames[1..]);
    }
  }
}
